=== FILE: README.md ===
# Wire autotiling and building variants, modelled in Dafny

This project models two parts of the building layer of a shapez.io fork.

**The wire autotiler.** Before a wire tile is placed, the wire building asks
which of its four neighbours it connects to. It packs the four answers into
a hexadecimal flag. An exhaustive switch over that flag picks one of four
wire shapes (forward, turn, split, cross) and a rotation offset. The offset
is clamped into `[0, 360)`. The shape is returned as its position in the
fixed order `[forward, turn, split, cross]`, the "rotation variant". Each
shape also has a 3x3 overlay pattern that the rotation generator turns in
quarter steps.

**The variant registry and component attachment** of the hub, stacker,
transistor and lever. Each building keeps one static table per property,
keyed by variant id: dimensions, colour, removable, rotatable, layer,
layer preview, render pins, overlay pattern and availability. Getters read
these tables. Each building also attaches components to an entity in two
places:

- `setupEntityComponents`, when the entity is created;
- `componentVariations[variant]`, when its variant changes.

The second path rewrites the components in place.

Layout, one module per file:

- `wrappers.dfy`: `Option` and `Result`.
- `geometry.dfy`: directions, tile vectors, edge sets, 3x3 matrices and their clockwise rotation.
- `components.dfy`: slot and component records; the entity as one optional slot per component type; footprint predicates.
- `registry.dfy`: variant ids, the per-building table record, the getters, and `getAvailableVariants`.
- `wire.dfy`, `transistor.dfy`, `hub.dfy`, `stacker.dfy`, `lever.dfy`: one per building.

Modelling choices:

- The static tables are modelled as maps over their own keys. A lookup for a variant the table does not hold returns `Failure(UnknownVariant(v))`; in the source such a read yields `undefined` and the caller throws (but see `Registry.Lookup` under "## Left out").
- `defaultBuildingVariant` is defined in a file that is not part of this model. Variant ids are therefore `DefaultVariant | Named(string)`, and the mirrored transistor is `Named("mirrored")`. A `Named` id is assumed never to spell the default id; if it did, the source would treat it as the default key, while the model treats it as an unknown variant.
- The hub declares no `renderPins` table. Its `getRenderPins` is inherited from `MetaBuilding`, which is not part of this model. `GetRenderPins` answers `Failure(NotOverridden)` for it.
- The hub, stacker and lever write their slot lists twice, once in setup and once in the default variation, as two separate literals, as the source does. So "the default variation reproduces setup" is a real comparison, not a definition. The transistor's variations write no slot list: they only set pin 1's direction, so `Transistor.DefaultVariationKeepsSetup` checks that setup already points pin 1 left.
- `flag |= w` is modelled as adding the weights. The four weights occupy disjoint bits, so OR and sum agree.
- JavaScript's truncating `%` is modelled explicitly (`Wire.JsRemainder`). The clamp only applies it to non-negative numbers.
- `generateMatrixRotations` lives in `core/utils`, which is not part of this model. It is modelled as the clockwise quarter turn `new[r][c] = old[2-c][r]`, with results keyed by rotation in degrees. That keying is how `getSpecialOverlayRenderMatrix` indexes the result (`matrices[rotation]`).
- The hub's acceptor list names two input edges twice: the left edge of tile (0,3) and the right edge of tile (3,3). Both appear once in a corner slot and once in a slot of their own. `Hub.AcceptsOnEveryBorderEdge` proves that the fourteen slots together open exactly the sixteen outward border edges. `Hub.CornerInputsListedTwice` records the repetition.
- The availability table is read in declaration order. JavaScript's `for…in` visits integer-like keys first, in ascending numeric order, and an object literal cannot hold a key twice; no variant id in these buildings is integer-like, so declaration order is the order the source visits.
- The resolver's four adjacency answers are booleans, so it has no rejection path for other input.
- Overlay rotation tables are keyed by the rotation in degrees, because `getSpecialOverlayRenderMatrix` reads them as `matrices[rotation]` (src/js/game/buildings/transistor.js:85), not by `rotation / 90`.
- The stacker's layer-preview table holds `null`. It is kept as its own value (`PreviewNull`), apart from `false` (`PreviewFalse`).

## Model

| member | source | states |
|---|---|---|
| Geometry.RotateClockwise | src/js/game/buildings/wire.js:199-202 | a quarter turn moves cell (2-c, r) of the pattern to cell (r, c) |
| Geometry.FourTurnsIdentity | src/js/game/buildings/wire.js:199-202 | four quarter turns give back the original pattern |
| Geometry.RotationTable | src/js/game/buildings/transistor.js:83-86 | the rotation table is defined for exactly 0, 90, 180 and 270 degrees, and each entry is the base pattern turned that many quarters |
| Geometry.ArmsOfRotationTable | src/js/game/buildings/wire.js:199-202 | the arms of a table entry are the base pattern's arms turned clockwise by the entry's angle |
| Geometry.RotateExample | src/js/game/buildings/transistor.js:148-149 | the transistor's default pattern, turned once, points its side arm up |
| Wire.Flag | src/js/game/buildings/wire.js:78-82 | the flag lies in 0..0x1111, every hex digit is 0 or 1, and decoding the digits gives back the four connections |
| Wire.FlagHasCase | src/js/game/buildings/wire.js:78-172 | every connection pattern produces a flag that has its own case in the switch, so nothing falls through |
| Wire.FlagInjective | src/js/game/buildings/wire.js:78-82 | two different connection patterns never share a flag |
| Wire.JsRemainder | src/js/game/buildings/wire.js:176 | JavaScript `%` agrees with the mathematical remainder on non-negative operands, lies in (-b, 0] for a negative dividend, and always differs from the dividend by a multiple of b |
| Wire.ClampRotation | src/js/game/buildings/wire.js:176 | any raw rotation of at least -3600 clamps into [0, 360) and stays congruent to it modulo 360 |
| Wire.IndexOf | src/js/game/buildings/wire.js:177 | the index is -1 exactly when the element is absent, and otherwise is its first position |
| Wire.SwitchMatchesShape | src/js/game/buildings/wire.js:89-172 | in all sixteen cases the switch picks the shape the connected edges call for; a straight piece gets offset 90 exactly when left or right is connected, and 0 otherwise; the cross gets offset 0 |
| Wire.ComputeOptimalDirectionAndRotationVariant | src/js/game/buildings/wire.js:65-179 | the rotation is one of 0/90/180/270; the rotation variant is in 0..3 and names the shape fixed by the count and adjacency of connected edges; a straight piece is turned 90 exactly when left or right is connected; a cross is never turned |
| Wire.IgnoresIncomingRotation | src/js/game/buildings/wire.js:86-87 | the result does not depend on the incoming rotation |
| Wire.TopRightIsTurn270 | src/js/game/buildings/wire.js:150-154 | top and right give a turn at 270, not -90 |
| Wire.TopLeftIsTurn180 | src/js/game/buildings/wire.js:134-138 | top and left give a turn at 180 |
| Wire.TopBottomLeftIsSplit90 | src/js/game/buildings/wire.js:144-148 | top, bottom and left give a split at 90 |
| Wire.RightBottomLeftIsSplit0 | src/js/game/buildings/wire.js:125-128 | right, bottom and left give a split at 0 |
| Wire.TopRightBottomIsSplit270 | src/js/game/buildings/wire.js:162-166 | top, right and bottom give a split at 270 |
| Wire.BaseArms | src/js/game/buildings/wire.js:199-202 | the arms of each shape's rotation-0 pattern |
| Wire.ResolvedOverlayArms | src/js/game/buildings/wire.js:174-202 | the resolved overlay's arms are the resolved shape's base arms turned by the resolved rotation |
| Wire.OverlayMatchesConnections | src/js/game/buildings/wire.js:89-202 | the overlay for the resolved shape and rotation reaches every connected edge, and equals the connected set once two or more edges are connected |
| Wire.Setup | src/js/game/buildings/wire.js:182 | creating a wire attaches a wire component and changes nothing else |
| Registry.Lookup | src/js/game/buildings/transistor.js:65-67 | a table read succeeds exactly for keys the table holds, returns that entry, and otherwise reports the unknown variant |
| Registry.GetSilhouetteColor | src/js/game/buildings/transistor.js:19-21 | defined exactly for variants in the colour table, and then returns that variant's colour |
| Registry.GetDimensions | src/js/game/buildings/transistor.js:65-67 | defined exactly for variants in the dimensions table, and then returns that variant's size |
| Registry.GetIsRemovable | src/js/game/buildings/transistor.js:26-28 | defined exactly for variants in the removable table, and then returns that variant's flag |
| Registry.GetIsRotatable | src/js/game/buildings/transistor.js:33-35 | defined exactly for variants in the rotatable table, and then returns that variant's flag |
| Registry.GetLayer | src/js/game/buildings/transistor.js:57-60 | defined exactly for variants in the layer table, and then returns that variant's layer |
| Registry.GetShowLayerPreview | src/js/game/buildings/transistor.js:72-74 | defined exactly for variants in the layer-preview table, and then returns that variant's preview |
| Registry.GetRenderPins | src/js/game/buildings/transistor.js:91-93 | a building without a render-pins table defers to the inherited default; otherwise defined exactly for its keys, returning that variant's entry |
| Registry.GetSpecialOverlayRenderMatrix | src/js/game/buildings/transistor.js:83-86 | defined exactly for variants in the overlay table; a null provider gives no overlay; otherwise the base pattern turned by rotation/90 quarters |
| Registry.AvailableVariants | src/js/game/buildings/transistor.js:40-49 | a variant is in the result exactly when some declaration of it has a predicate that holds, and the result is no longer than the declarations |
| Registry.GetAvailableVariants | src/js/game/buildings/transistor.js:40-49 | the loop returns the declaration-ordered filter, and a variant is returned exactly when its predicate holds |
| Registry.UniformAvailability | src/js/game/buildings/transistor.js:184-189 | when all variants share one predicate, the result is all declared variants in declaration order, or none |
| Registry.AdvertisedVariantsResolve | src/js/game/buildings/transistor.js:143-194 | when every table is keyed by the same variants, every getter succeeds on every advertised variant |
| Transistor.Setup | src/js/game/buildings/transistor.js:112-141 | three pins on the single tile, each facing out: an output on top, inputs on the left and at the bottom; a transistor gate; nothing else changes |
| Transistor.ApplyDefault | src/js/game/buildings/transistor.js:197-199 | only pin 1's direction changes, to left; positions, pin types, the other pins and the other components stay |
| Transistor.ApplyMirrored | src/js/game/buildings/transistor.js:201-203 | only pin 1's direction changes, to right; positions, pin types, the other pins and the other components stay |
| Transistor.UpdateVariants | src/js/game/buildings/transistor.js:108-110 | succeeds exactly for the two variants and turns pin 1 left for the default variant and right for the mirrored one |
| Transistor.TablesCoverBothVariants | src/js/game/buildings/transistor.js:143-194 | every table is keyed by exactly the default and mirrored variants |
| Transistor.SharedDescriptor | src/js/game/buildings/transistor.js:154-194 | both variants are 1x1, share a colour, are removable and rotatable, sit on the wires layer, preview it, and do not draw pins |
| Transistor.AvailableWithLogicGates | src/js/game/buildings/transistor.js:184-189 | both variants in declaration order once logic gates are unlocked, none before |
| Transistor.DefaultVariationKeepsSetup | src/js/game/buildings/transistor.js:112-199 | applying the default variation to a set-up transistor changes nothing |
| Transistor.VariationsIdempotent | src/js/game/buildings/transistor.js:196-204 | applying either variation twice equals applying it once |
| Transistor.MirrorThenDefaultRestores | src/js/game/buildings/transistor.js:196-204 | mirroring then switching back to default restores the default state |
| Transistor.OverlayArmsMatchPins | src/js/game/buildings/transistor.js:147-152 | each variant's overlay arms are exactly the edges its pins face after the variation, so the side arm follows pin 1 |
| Hub.Setup | src/js/game/buildings/hub.js:115-215 | hub component; processor of type hub with one input per charge; one output pin on the left border facing left, out of the footprint; fourteen shape-only inputs on the border facing outward |
| Hub.ApplyDefault | src/js/game/buildings/hub.js:249-336 | writes exactly the processor, pins and acceptors that setup attaches, and leaves every other component alone |
| Hub.UpdateVariants | src/js/game/buildings/hub.js:109-111 | succeeds exactly for the default variant; the processor, pins and acceptors become setup's and every other component stays |
| Hub.TablesKeyedByDefault | src/js/game/buildings/hub.js:217-247 | every table is keyed by the default variant only, and there is no render-pins table |
| Hub.DefaultDescriptor | src/js/game/buildings/hub.js:221-247 | 4x4, neither removable nor rotatable, regular layer, no layer preview |
| Hub.NeverAvailable | src/js/game/buildings/hub.js:237-239 | no variant is offered, whatever is unlocked |
| Hub.NoOverlay | src/js/game/buildings/hub.js:233-235 | no overlay at any rotation |
| Hub.DefaultVariationReproducesSetup | src/js/game/buildings/hub.js:249-336 | the default variation gives back the set-up state and is idempotent |
| Hub.AcceptsOnEveryBorderEdge | src/js/game/buildings/hub.js:140-211 | the acceptor slots open exactly the sixteen outward edges of the 4x4 border |
| Hub.CornerInputsListedTwice | src/js/game/buildings/hub.js:162-211 | the left edge of (0,3) and the right edge of (3,3) are each listed by two slots |
| Stacker.Setup | src/js/game/buildings/stacker.js:123-154 | processor of type stacker with two inputs per charge; one output facing up out of the footprint; two distinct shape inputs facing down out of it |
| Stacker.ApplyDefault | src/js/game/buildings/stacker.js:205-226 | writes exactly the processor, ejectors and acceptors that setup attaches, and leaves every other component alone |
| Stacker.UpdateVariants | src/js/game/buildings/stacker.js:119-121 | succeeds exactly for the default variant; the processor, ejectors and acceptors become setup's and every other component stays |
| Stacker.TablesKeyedByDefault | src/js/game/buildings/stacker.js:156-190 | every table is keyed by the default variant only |
| Stacker.DefaultDescriptor | src/js/game/buildings/stacker.js:156-190 | 2x1, removable, rotatable, regular layer, no overlay, null layer preview, null render pins |
| Stacker.AvailableWithStacker | src/js/game/buildings/stacker.js:168-170 | offered exactly when the stacker reward is unlocked |
| Stacker.DefaultVariationReproducesSetup | src/js/game/buildings/stacker.js:205-226 | the default variation gives back the set-up state and is idempotent |
| Lever.Setup | src/js/game/buildings/lever.js:115-129 | one output pin facing up out of the single tile, and a lever component |
| Lever.ApplyDefault | src/js/game/buildings/lever.js:168-178 | replaces the pins with setup's and changes no other component, the lever included |
| Lever.UpdateVariants | src/js/game/buildings/lever.js:111-113 | succeeds exactly for the default variant, with setup's pins, and every other component, the lever included, stays as it was |
| Lever.TablesKeyedByDefault | src/js/game/buildings/lever.js:131-166 | every table is keyed by the default variant only |
| Lever.DefaultDescriptor | src/js/game/buildings/lever.js:131-166 | 1x1, removable, rotatable, regular layer, wires-layer preview, pins drawn, no overlay |
| Lever.AvailableWithWires | src/js/game/buildings/lever.js:151-154 | offered exactly when wires, painter and levers are unlocked |
| Lever.DefaultVariationReproducesSetup | src/js/game/buildings/lever.js:168-178 | the default variation gives back the set-up state and is idempotent |

## Left out

- Sprite selection (`getPreviewSprite`, `getBlueprintSprite`, `getSprite`): these only load assets or return null.
- The adjacency query `computeWireEdgeStatus`: it belongs to the game logic. Its four answers are the resolver's inputs.
- `wireVariantToVariant` and the wire variant classes: they depend on files that are not part of this model. The resolver's `variant` argument only feeds the adjacency query, and its `layer` argument is never read, so neither is a parameter.
- The stacker's `additionalStatistics`: it uses translations, processor speed and number formatting.
- The hub's static `canPipet`: it is not read by any code in these files.
- Component internals beyond the fields these files write, such as runtime item or signal state: the component classes are not part of this model. Components are plain records and `setSlots` replaces the list.
- `addComponent` and the `MetaBuilding` base class: not part of this model. Attaching a component fills that component's slot of the entity.
- The processor field name: setup passes `processorType` to the constructor, and the variations write `type`. The constructor is not part of this model, so both are taken to mean the same field.
- The `rotationVariant` and entity arguments of the variation functions and overlay providers: no code in these files reads them.
- Registry.GetSpecialOverlayRenderMatrix: takes the rotation as one of 0, 90, 180 or 270. For any other number the source's table lookup yields `undefined`, which is not modelled.
- Rollback of a half-applied variation: the source has none. The hub and stacker variations write the processor first, so an entity that has a processor but lacks a later component is left half-updated when the source throws (src/js/game/buildings/hub.js:251-255, src/js/game/buildings/stacker.js:207-211). The model excludes such entities by precondition instead of modelling the half-applied state.
- Hub.ApplyDefault: requires `Configurable` (processor, pins and acceptors present). A missing component makes the source throw, which is not modelled.
- Hub.UpdateVariants: for the default variant requires `Configurable`. A missing component makes the source throw, which is not modelled.
- Stacker.ApplyDefault: requires `Configurable` (processor, ejectors and acceptors present). A missing component makes the source throw, which is not modelled.
- Stacker.UpdateVariants: for the default variant requires `Configurable`. A missing component makes the source throw, which is not modelled.
- Transistor.ApplyDefault: requires `HasControlPin` (a pins component with at least two slots). Otherwise `slots[1]` is undefined and the source throws, which is not modelled.
- Transistor.ApplyMirrored: requires `HasControlPin`, for the same reason as `Transistor.ApplyDefault`.
- Transistor.UpdateVariants: for either variant requires `HasControlPin`, for the same reason as `Transistor.ApplyDefault`.
- Lever.ApplyDefault: requires a pins component. Without one the source throws, which is not modelled.
- Lever.UpdateVariants: for the default variant requires a pins component, for the same reason as `Lever.ApplyDefault`.
- Registry.Lookup: a variant named like a property every JavaScript object inherits (`toString`, `valueOf`, `constructor`, …) is found on `Object.prototype` in the source rather than missing, so the read returns that inherited function instead of throwing (for example `dimensions["toString"]()` gives `"[object Object]"`, and `componentVariations["valueOf"]` returns without changing the entity). The model treats such names as unknown variants. This applies to every getter and to each building's `UpdateVariants`: the model answers `Failure(UnknownVariant(v))` for such a name wherever the source would read an inherited property.

=== FILE: components.dfy ===
/** The component records a building attaches to an entity. Component classes
    are plain records here; `setSlots` replaces a slot list as a whole. */
module Components {
  import opened Wrappers
  import opened Geometry

  datatype PinType = LogicalEjector | LogicalAcceptor

  /** A wire pin: where it sits, which edge it faces and what it does. */
  datatype PinSlot = PinSlot(pos: Vector, direction: Direction, pinType: PinType)

  /** An item input: where it sits, which edges it accepts from, what it lets in. */
  datatype AcceptorSlot = AcceptorSlot(pos: Vector, directions: seq<Direction>, filter: string)

  /** An item output: where it sits and which edge it ejects to. */
  datatype EjectorSlot = EjectorSlot(pos: Vector, direction: Direction)

  datatype ProcessorType = HubProcessor | StackerProcessor

  datatype LogicGateType = TransistorGate

  datatype ItemProcessorComponent = ItemProcessorComponent(inputsPerCharge: int, processorType: ProcessorType)

  datatype WiredPinsComponent = WiredPinsComponent(slots: seq<PinSlot>)

  datatype ItemAcceptorComponent = ItemAcceptorComponent(slots: seq<AcceptorSlot>)

  datatype ItemEjectorComponent = ItemEjectorComponent(slots: seq<EjectorSlot>)

  datatype LogicGateComponent = LogicGateComponent(gateType: LogicGateType)

  /** Components whose state these buildings never configure. */
  datatype HubComponent = HubComponent

  datatype LeverComponent = LeverComponent

  datatype WireComponent = WireComponent

  /** An entity's component map: at most one instance of each component type. */
  datatype Entity = Entity(
    hub: Option<HubComponent>,
    itemProcessor: Option<ItemProcessorComponent>,
    wiredPins: Option<WiredPinsComponent>,
    itemAcceptor: Option<ItemAcceptorComponent>,
    itemEjector: Option<ItemEjectorComponent>,
    logicGate: Option<LogicGateComponent>,
    lever: Option<LeverComponent>,
    wire: Option<WireComponent>)

  /** A freshly created entity with no components attached. */
  const Blank: Entity := Entity(None, None, None, None, None, None, None, None)

  /** `pos` lies inside a footprint of the given size. */
  predicate InFootprint(pos: Vector, dims: Vector) {
    0 <= pos.x < dims.x && 0 <= pos.y < dims.y
  }

  /** A slot at `pos` facing `d` looks out of the footprint: its tile lies on
      the edge of the footprint that `d` names. */
  predicate FacesOutward(pos: Vector, d: Direction, dims: Vector) {
    InFootprint(pos, dims) &&
    match d
    case Top => pos.y == 0
    case Bottom => pos.y == dims.y - 1
    case Left => pos.x == 0
    case Right => pos.x == dims.x - 1
  }

  /** `pos` lies on the border ring of the footprint. */
  predicate OnBorder(pos: Vector, dims: Vector) {
    InFootprint(pos, dims) &&
    (pos.x == 0 || pos.y == 0 || pos.x == dims.x - 1 || pos.y == dims.y - 1)
  }
}

=== FILE: geometry.dfy ===
/** Grid geometry shared by every building: the four edge directions, tile
    offsets, sets of edges, and the 3x3 overlay matrices with their clockwise
    rotation. */
module Geometry {

  /** The four edge directions of a tile, in clockwise order. */
  datatype Direction = Top | Right | Bottom | Left

  /** The direction a quarter turn clockwise from `d`. */
  function Clockwise(d: Direction): (r: Direction)
    ensures r != d
  {
    match d
    case Top => Right
    case Right => Bottom
    case Bottom => Left
    case Left => Top
  }

  /** A tile offset inside a building's footprint. */
  datatype Vector = Vector(x: int, y: int)

  /** One flag per edge of a tile: which neighbours are connected, or which
      arms an overlay pattern draws. */
  datatype Edges = Edges(top: bool, right: bool, bottom: bool, left: bool)

  const NoEdges: Edges := Edges(false, false, false, false)

  predicate Has(e: Edges, d: Direction) {
    match d
    case Top => e.top
    case Right => e.right
    case Bottom => e.bottom
    case Left => e.left
  }

  /** Number of flagged edges. */
  function Count(e: Edges): (n: nat)
    ensures n <= 4
    ensures n == 0 <==> e == NoEdges
  {
    (if e.top then 1 else 0) + (if e.right then 1 else 0)
    + (if e.bottom then 1 else 0) + (if e.left then 1 else 0)
  }

  /** Every edge flagged in `small` is flagged in `big`. */
  predicate Covers(big: Edges, small: Edges) {
    (small.top ==> big.top) && (small.right ==> big.right)
    && (small.bottom ==> big.bottom) && (small.left ==> big.left)
  }

  /** The edge set of a list of directions. */
  function EdgesOf(ds: seq<Direction>): (e: Edges)
    ensures forall d: Direction :: Has(e, d) <==> d in ds
  {
    Edges(Top in ds, Right in ds, Bottom in ds, Left in ds)
  }

  /** The edge set turned a quarter clockwise: each flag moves to the next
      direction clockwise. */
  function TurnEdges(e: Edges): (r: Edges)
    ensures forall d: Direction :: Has(r, Clockwise(d)) == Has(e, d)
    ensures Count(r) == Count(e)
  {
    Edges(e.left, e.top, e.right, e.bottom)
  }

  /** A 3x3 matrix of 0/1 cells, stored row-major as the source does. */
  type Matrix = m: seq<bool> | |m| == 9
    witness [false, false, false, false, false, false, false, false, false]

  /** The cell in row `row` and column `col`. */
  function At(m: Matrix, row: int, col: int): bool
    requires 0 <= row < 3 && 0 <= col < 3
  {
    m[3 * row + col]
  }

  /** Reads a flat 0/1 list as a matrix. */
  function FromBits(bits: seq<int>): (m: Matrix)
    requires |bits| == 9
    ensures forall i | 0 <= i < 9 :: m[i] <==> bits[i] == 1
  {
    seq(9, i requires 0 <= i < 9 => bits[i] == 1)
  }

  /** A quarter turn clockwise of a 3x3 matrix. */
  function RotateClockwise(m: Matrix): (r: Matrix)
    ensures forall row, col | 0 <= row < 3 && 0 <= col < 3 :: At(r, row, col) == At(m, 2 - col, row)
  {
    [m[6], m[3], m[0], m[7], m[4], m[1], m[8], m[5], m[2]]
  }

  /** `m` turned clockwise `quarters` times. */
  function RotateBy(m: Matrix, quarters: nat): Matrix
  {
    if quarters == 0 then m else RotateClockwise(RotateBy(m, quarters - 1))
  }

  /** The arms of an overlay pattern: cell 1 is the top arm, 3 the left, 5 the
      right and 7 the bottom one. */
  function ArmsOf(m: Matrix): Edges {
    Edges(m[1], m[5], m[7], m[3])
  }

  /** Turning a pattern clockwise turns its arms clockwise. */
  lemma ArmsOfRotate(m: Matrix)
    ensures ArmsOf(RotateClockwise(m)) == TurnEdges(ArmsOf(m))
  {
  }

  /** Four quarter turns give the matrix back. */
  lemma {:induction false} FourTurnsIdentity(m: Matrix)
    ensures RotateBy(m, 4) == m
  {
    var r1 := RotateBy(m, 1);
    var r2 := RotateBy(m, 2);
    var r3 := RotateBy(m, 3);
    var r4 := RotateBy(m, 4);
    assert r1 == RotateClockwise(m) by { assert RotateBy(m, 0) == m; }
    assert r2 == RotateClockwise(r1);
    assert r3 == RotateClockwise(r2);
    assert r4 == RotateClockwise(r3);
    assert forall i | 0 <= i < 9 :: r4[i] == m[i];
  }

  /** A rotation in degrees as the placement layer stores it. */
  type Angle = a: int | a == 0 || a == 90 || a == 180 || a == 270

  /** The rotation table `generateMatrixRotations` precomputes for a base
      pattern, keyed by rotation in degrees; each entry is the previous one
      turned a quarter clockwise. */
  function RotationTable(m: Matrix): (t: map<int, Matrix>)
    ensures t.Keys == {0, 90, 180, 270}
    ensures forall a: Angle :: t[a] == RotateBy(m, a / 90)
  {
    var r90 := RotateClockwise(m);
    var r180 := RotateClockwise(r90);
    var r270 := RotateClockwise(r180);
    assert RotateBy(m, 0) == m;
    assert RotateBy(m, 1) == r90;
    assert RotateBy(m, 2) == r180;
    assert RotateBy(m, 3) == r270;
    map[0 := m, 90 := r90, 180 := r180, 270 := r270]
  }

  /** An edge set turned clockwise by an angle. */
  function TurnEdgesBy(e: Edges, a: Angle): Edges {
    if a == 0 then e
    else if a == 90 then TurnEdges(e)
    else if a == 180 then TurnEdges(TurnEdges(e))
    else TurnEdges(TurnEdges(TurnEdges(e)))
  }

  /** The arms of a rotation table entry are the base pattern's arms turned
      by the entry's angle. */
  lemma ArmsOfRotationTable(m: Matrix, a: Angle)
    ensures ArmsOf(RotationTable(m)[a]) == TurnEdgesBy(ArmsOf(m), a)
  {
    var r90 := RotateClockwise(m);
    var r180 := RotateClockwise(r90);
    ArmsOfRotate(m);
    ArmsOfRotate(r90);
    ArmsOfRotate(r180);
  }

  /** The worked example of a quarter turn: a left-pointing tee becomes an
      up-pointing one. */
  lemma RotateExample()
    ensures RotateClockwise(FromBits([0, 1, 0, 1, 1, 0, 0, 1, 0])) == FromBits([0, 1, 0, 1, 1, 1, 0, 0, 0])
  {
  }
}

=== FILE: hub.dfy ===
/** The hub: the fixed 4x4 goal building. It has one variant, is never offered
    in the build menu, accepts shapes on every outer edge and reports through
    one wire pin. */
module Hub {
  import opened Wrappers
  import opened Geometry
  import opened Components
  import opened Registry

  const Variants: set<VariantId> := {DefaultVariant}

  /** The footprint. */
  const Size: Vector := Vector(4, 4)

  /** The static tables; the hub declares no render-pins table. */
  const Tables: Building := Building(
    silhouetteColors := map[DefaultVariant := "#eb5555"],
    dimensions := map[DefaultVariant := Vector(4, 4)],
    isRemovable := map[DefaultVariant := false],
    isRotatable := map[DefaultVariant := false],
    renderPins := None,
    layerPreview := map[DefaultVariant := PreviewFalse],
    availableVariants := [(DefaultVariant, Never)],
    layerByVariant := map[DefaultVariant := Regular],
    overlayMatrices := map[DefaultVariant := None])

  /** Every acceptor slot takes shapes only, lies on the border of the
      footprint and accepts only from edges facing out of it. */
  predicate OuterShapeInputs(slots: seq<AcceptorSlot>, dims: Vector) {
    forall i | 0 <= i < |slots| ::
      && slots[i].filter == "shape"
      && OnBorder(slots[i].pos, dims)
      && |slots[i].directions| > 0
      && forall j | 0 <= j < |slots[i].directions| :: FacesOutward(slots[i].pos, slots[i].directions[j], dims)
  }

  /** `setupEntityComponents`: the hub component, a hub processor taking one
      input per charge, one output pin and fourteen shape inputs. */
  function Setup(e: Entity): (r: Entity)
    ensures r.hub.Some?
    ensures r.itemProcessor == Some(ItemProcessorComponent(1, HubProcessor))
    ensures r.wiredPins.Some? && |r.wiredPins.value.slots| == 1
    ensures r.wiredPins.value.slots[0].pinType == LogicalEjector
    ensures r.wiredPins.value.slots[0].direction == Left
    ensures FacesOutward(r.wiredPins.value.slots[0].pos, r.wiredPins.value.slots[0].direction, Size)
    ensures r.itemAcceptor.Some? && |r.itemAcceptor.value.slots| == 14
    ensures OuterShapeInputs(r.itemAcceptor.value.slots, Size)
    ensures r.(hub := e.hub, itemProcessor := e.itemProcessor, wiredPins := e.wiredPins, itemAcceptor := e.itemAcceptor) == e
  {
    e.(hub := Some(HubComponent))
     .(itemProcessor := Some(ItemProcessorComponent(inputsPerCharge := 1, processorType := HubProcessor)))
     .(wiredPins := Some(WiredPinsComponent([PinSlot(Vector(0, 2), Left, LogicalEjector)])))
     .(itemAcceptor := Some(ItemAcceptorComponent([
        AcceptorSlot(Vector(0, 0), [Top, Left], "shape"),
        AcceptorSlot(Vector(1, 0), [Top], "shape"),
        AcceptorSlot(Vector(2, 0), [Top], "shape"),
        AcceptorSlot(Vector(3, 0), [Top, Right], "shape"),
        AcceptorSlot(Vector(0, 3), [Bottom, Left], "shape"),
        AcceptorSlot(Vector(1, 3), [Bottom], "shape"),
        AcceptorSlot(Vector(2, 3), [Bottom], "shape"),
        AcceptorSlot(Vector(3, 3), [Bottom, Right], "shape"),
        AcceptorSlot(Vector(0, 1), [Left], "shape"),
        AcceptorSlot(Vector(0, 2), [Left], "shape"),
        AcceptorSlot(Vector(0, 3), [Left], "shape"),
        AcceptorSlot(Vector(3, 1), [Right], "shape"),
        AcceptorSlot(Vector(3, 2), [Right], "shape"),
        AcceptorSlot(Vector(3, 3), [Right], "shape")])))
  }

  /** The components the default variation writes. */
  predicate Configurable(e: Entity) {
    e.itemProcessor.Some? && e.wiredPins.Some? && e.itemAcceptor.Some?
  }

  /** `componentVariations[default]`: rewrites the processor settings and
      replaces both slot lists. It writes exactly what setup writes to those
      three components and leaves every other component alone. */
  function ApplyDefault(e: Entity): (r: Entity)
    requires Configurable(e)
    ensures Configurable(r)
    ensures r.itemProcessor == Setup(e).itemProcessor
    ensures r.wiredPins == Setup(e).wiredPins
    ensures r.itemAcceptor == Setup(e).itemAcceptor
    ensures r.(itemProcessor := e.itemProcessor, wiredPins := e.wiredPins, itemAcceptor := e.itemAcceptor) == e
  {
    var processor := e.itemProcessor.value.(inputsPerCharge := 1).(processorType := HubProcessor);
    e.(itemProcessor := Some(processor))
     .(wiredPins := Some(WiredPinsComponent([PinSlot(Vector(0, 2), Left, LogicalEjector)])))
     .(itemAcceptor := Some(ItemAcceptorComponent([
        AcceptorSlot(Vector(0, 0), [Top, Left], "shape"),
        AcceptorSlot(Vector(1, 0), [Top], "shape"),
        AcceptorSlot(Vector(2, 0), [Top], "shape"),
        AcceptorSlot(Vector(3, 0), [Top, Right], "shape"),
        AcceptorSlot(Vector(0, 3), [Bottom, Left], "shape"),
        AcceptorSlot(Vector(1, 3), [Bottom], "shape"),
        AcceptorSlot(Vector(2, 3), [Bottom], "shape"),
        AcceptorSlot(Vector(3, 3), [Bottom, Right], "shape"),
        AcceptorSlot(Vector(0, 1), [Left], "shape"),
        AcceptorSlot(Vector(0, 2), [Left], "shape"),
        AcceptorSlot(Vector(0, 3), [Left], "shape"),
        AcceptorSlot(Vector(3, 1), [Right], "shape"),
        AcceptorSlot(Vector(3, 2), [Right], "shape"),
        AcceptorSlot(Vector(3, 3), [Right], "shape")])))
  }

  /** `updateVariants`: dispatch on the variant table. */
  function UpdateVariants(e: Entity, v: VariantId): (r: Result<Entity, RegistryError>)
    requires v in Variants ==> Configurable(e)
    ensures r.Success? <==> v in Variants
    ensures r.Success? ==> r.value.itemProcessor == Setup(e).itemProcessor
    ensures r.Success? ==> r.value.wiredPins == Setup(e).wiredPins
    ensures r.Success? ==> r.value.itemAcceptor == Setup(e).itemAcceptor
    ensures r.Success? ==>
              r.value.(itemProcessor := e.itemProcessor, wiredPins := e.wiredPins, itemAcceptor := e.itemAcceptor) == e
  {
    if v == DefaultVariant then Success(ApplyDefault(e)) else Failure(UnknownVariant(v))
  }

  /** Every table is keyed by the default variant only; there is no
      render-pins table. */
  lemma TablesKeyedByDefault()
    ensures TablesKeyedBy(Tables, Variants)
    ensures Tables.renderPins.None?
  {
    assert Ids(Tables.availableVariants) == [DefaultVariant];
  }

  /** The default descriptor: 4x4, neither removable nor rotatable, on the
      regular layer, no layer preview. */
  lemma DefaultDescriptor()
    ensures GetDimensions(Tables, DefaultVariant) == Success(Size)
    ensures GetIsRemovable(Tables, DefaultVariant) == Success(false)
    ensures GetIsRotatable(Tables, DefaultVariant) == Success(false)
    ensures GetLayer(Tables, DefaultVariant) == Success(Regular)
    ensures GetShowLayerPreview(Tables, DefaultVariant) == Success(PreviewFalse)
    ensures GetRenderPins(Tables, DefaultVariant) == Failure(NotOverridden)
  {
  }

  /** The hub is never offered, whatever is unlocked. */
  lemma NeverAvailable(unlocked: set<Reward>)
    ensures AvailableVariants(Tables.availableVariants, unlocked) == []
  {
    UniformAvailability(Tables.availableVariants, Never, unlocked);
  }

  /** The hub draws no overlay at any rotation. */
  lemma NoOverlay(rotation: Angle)
    ensures GetSpecialOverlayRenderMatrix(Tables, rotation, DefaultVariant) == Success(None)
  {
  }

  /** The default variation gives back the state setup produced, and
      applying it twice is the same as applying it once. */
  lemma DefaultVariationReproducesSetup(e: Entity)
    ensures ApplyDefault(Setup(e)) == Setup(e)
    ensures Configurable(e) ==> ApplyDefault(ApplyDefault(e)) == ApplyDefault(e)
  {
  }

  /** The input edges of a list of acceptor slots: each slot position paired
      with each direction it accepts from. */
  ghost function InputEdges(slots: seq<AcceptorSlot>): set<(Vector, Direction)> {
    set i, j | 0 <= i < |slots| && 0 <= j < |slots[i].directions| :: (slots[i].pos, slots[i].directions[j])
  }

  /** All outward-facing edges of the 4x4 border. */
  ghost function BorderEdges(): set<(Vector, Direction)> {
    set x, y, d: Direction | 0 <= x < 4 && 0 <= y < 4 && FacesOutward(Vector(x, y), d, Size) :: (Vector(x, y), d)
  }

  /** The fourteen slots open the hub to every outward edge of its border. */
  lemma AcceptsOnEveryBorderEdge()
    ensures InputEdges(Setup(Blank).itemAcceptor.value.slots) == BorderEdges()
  {
    var slots := Setup(Blank).itemAcceptor.value.slots;
    forall p | p in BorderEdges()
      ensures p in InputEdges(slots)
    {
      var x, y, d: Direction :| 0 <= x < 4 && 0 <= y < 4 && FacesOutward(Vector(x, y), d, Size) && p == (Vector(x, y), d);
      var i, j;
      match d {
        case Top => i, j := x, 0;
        case Bottom => i, j := 4 + x, 0;
        case Left => i, j := if y == 0 then 0 else 7 + y, if y == 0 then 1 else 0;
        case Right => i, j := if y == 0 then 3 else 10 + y, if y == 0 then 1 else 0;
      }
      assert 0 <= i < |slots| && 0 <= j < |slots[i].directions|;
      assert p == (slots[i].pos, slots[i].directions[j]);
    }
  }

  /** Two of those edges are listed twice: the bottom-left tile accepts from
      the left both through its corner slot and through a separate slot,
      and so does the bottom-right tile from the right. */
  lemma CornerInputsListedTwice()
    ensures var slots := Setup(Blank).itemAcceptor.value.slots;
            && slots[4].pos == slots[10].pos == Vector(0, 3)
            && Left in slots[4].directions && Left in slots[10].directions
            && slots[7].pos == slots[13].pos == Vector(3, 3)
            && Right in slots[7].directions && Right in slots[13].directions
  {
  }
}

=== FILE: lever.dfy ===
/** The lever: a 1x1 switch on the regular layer whose single wire pin
    reports its state. It has one variant, unlocked together with wires. */
module Lever {
  import opened Wrappers
  import opened Geometry
  import opened Components
  import opened Registry

  const Variants: set<VariantId> := {DefaultVariant}

  /** The footprint. */
  const Size: Vector := Vector(1, 1)

  /** The static tables. */
  const Tables: Building := Building(
    silhouetteColors := map[DefaultVariant := "#1a678b"],
    dimensions := map[DefaultVariant := Vector(1, 1)],
    isRemovable := map[DefaultVariant := true],
    isRotatable := map[DefaultVariant := true],
    renderPins := Some(map[DefaultVariant := RenderTrue]),
    layerPreview := map[DefaultVariant := PreviewLayer(Wires)],
    availableVariants := [(DefaultVariant, WhenUnlocked(RewardWiresPainterAndLevers))],
    layerByVariant := map[DefaultVariant := Regular],
    overlayMatrices := map[DefaultVariant := None])

  /** `setupEntityComponents`: one output pin facing up, and the lever
      component. */
  function Setup(e: Entity): (r: Entity)
    ensures r.wiredPins.Some? && |r.wiredPins.value.slots| == 1
    ensures r.wiredPins.value.slots[0].pinType == LogicalEjector
    ensures r.wiredPins.value.slots[0].direction == Top
    ensures FacesOutward(r.wiredPins.value.slots[0].pos, Top, Size)
    ensures r.lever.Some?
    ensures r.(wiredPins := e.wiredPins, lever := e.lever) == e
  {
    e.(wiredPins := Some(WiredPinsComponent([PinSlot(Vector(0, 0), Top, LogicalEjector)])))
     .(lever := Some(LeverComponent))
  }

  /** `componentVariations[default]`: replaces the pin list with the one
      setup attaches, and touches no other component, the lever included. */
  function ApplyDefault(e: Entity): (r: Entity)
    requires e.wiredPins.Some?
    ensures r.wiredPins == Setup(e).wiredPins
    ensures r.(wiredPins := e.wiredPins) == e
  {
    e.(wiredPins := Some(WiredPinsComponent([PinSlot(Vector(0, 0), Top, LogicalEjector)])))
  }

  /** `updateVariants`: dispatch on the variant table. */
  function UpdateVariants(e: Entity, v: VariantId): (r: Result<Entity, RegistryError>)
    requires v in Variants ==> e.wiredPins.Some?
    ensures r.Success? <==> v in Variants
    ensures r.Success? ==> r.value.wiredPins == Setup(e).wiredPins && r.value.lever == e.lever
    ensures r.Success? ==> r.value.(wiredPins := e.wiredPins) == e
  {
    if v == DefaultVariant then Success(ApplyDefault(e)) else Failure(UnknownVariant(v))
  }

  /** Every table is keyed by the default variant only. */
  lemma TablesKeyedByDefault()
    ensures TablesKeyedBy(Tables, Variants)
    ensures Tables.renderPins.Some?
  {
    assert Ids(Tables.availableVariants) == [DefaultVariant];
  }

  /** The default descriptor: 1x1, removable, rotatable, on the regular
      layer, previewing the wires layer, pins drawn, no overlay. */
  lemma DefaultDescriptor(rotation: Angle)
    ensures GetDimensions(Tables, DefaultVariant) == Success(Size)
    ensures GetIsRemovable(Tables, DefaultVariant) == Success(true)
    ensures GetIsRotatable(Tables, DefaultVariant) == Success(true)
    ensures GetLayer(Tables, DefaultVariant) == Success(Regular)
    ensures GetShowLayerPreview(Tables, DefaultVariant) == Success(PreviewLayer(Wires))
    ensures GetRenderPins(Tables, DefaultVariant) == Success(RenderTrue)
    ensures GetSpecialOverlayRenderMatrix(Tables, rotation, DefaultVariant) == Success(None)
  {
  }

  /** Offered exactly when wires, painter and levers are unlocked. */
  lemma AvailableWithWires(unlocked: set<Reward>)
    ensures AvailableVariants(Tables.availableVariants, unlocked)
         == (if RewardWiresPainterAndLevers in unlocked then [DefaultVariant] else [])
  {
    UniformAvailability(Tables.availableVariants, WhenUnlocked(RewardWiresPainterAndLevers), unlocked);
  }

  /** The default variation gives back the state setup produced, and is
      idempotent. */
  lemma DefaultVariationReproducesSetup(e: Entity)
    ensures ApplyDefault(Setup(e)) == Setup(e)
    ensures e.wiredPins.Some? ==> ApplyDefault(ApplyDefault(e)) == ApplyDefault(e)
  {
  }
}

=== FILE: registry.dfy ===
/** The building-variant registry: each building keeps one static table per
    property, keyed by variant id, and reads them through getters that are
    defined only for the keys a table holds. */
module Registry {
  import opened Wrappers
  import opened Geometry

  /** A variant id: the shared default variant, or a variant named by a string. */
  datatype VariantId = DefaultVariant | Named(name: string)

  /** Looking a variant up in a table that has no entry for it (in the source,
      a call of `undefined`), or asking for a table the building does not
      declare, so that the inherited building default answers. */
  datatype RegistryError = UnknownVariant(variant: VariantId) | NotOverridden

  datatype Layer = Regular | Wires

  /** What `getShowLayerPreview` returns: a layer name, `false` or `null`. */
  datatype LayerPreview = PreviewLayer(layer: Layer) | PreviewFalse | PreviewNull

  /** What `getRenderPins` returns: `true`, `false` or `null`. */
  datatype RenderPins = RenderTrue | RenderFalse | RenderNull

  /** The hub-goal rewards that unlock these buildings. */
  datatype Reward = RewardLogicGates | RewardStacker | RewardWiresPainterAndLevers

  /** The availability predicate of one variant: never, or once a reward is unlocked. */
  datatype Availability = Never | WhenUnlocked(reward: Reward)

  /** Evaluates an availability predicate against the unlocked rewards. */
  predicate IsAvailable(a: Availability, unlocked: set<Reward>) {
    match a
    case Never => false
    case WhenUnlocked(reward) => reward in unlocked
  }

  /** The static tables of one building. `availableVariants` keeps the
      declaration order of its keys; `overlayMatrices` holds the rotation-0
      pattern a provider hands to the rotation generator, or `None` for a
      provider that returns `null`; `renderPins` is `None` when the building
      declares no such table. */
  datatype Building = Building(
    silhouetteColors: map<VariantId, string>,
    dimensions: map<VariantId, Vector>,
    isRemovable: map<VariantId, bool>,
    isRotatable: map<VariantId, bool>,
    renderPins: Option<map<VariantId, RenderPins>>,
    layerPreview: map<VariantId, LayerPreview>,
    availableVariants: seq<(VariantId, Availability)>,
    layerByVariant: map<VariantId, Layer>,
    overlayMatrices: map<VariantId, Option<Matrix>>)

  /** The ids of a declaration list, in order. */
  function Ids(decls: seq<(VariantId, Availability)>): (ids: seq<VariantId>)
    ensures |ids| == |decls|
    ensures forall i | 0 <= i < |decls| :: ids[i] == decls[i].0
  {
    if |decls| == 0 then [] else Ids(decls[..|decls| - 1]) + [decls[|decls| - 1].0]
  }

  /** Every table of `b` has an entry for exactly the variants in `keys`, and
      each variant's availability is declared once. */
  predicate TablesKeyedBy(b: Building, keys: set<VariantId>) {
    && b.silhouetteColors.Keys == keys
    && b.dimensions.Keys == keys
    && b.isRemovable.Keys == keys
    && b.isRotatable.Keys == keys
    && (b.renderPins.Some? ==> b.renderPins.value.Keys == keys)
    && b.layerPreview.Keys == keys
    && b.layerByVariant.Keys == keys
    && b.overlayMatrices.Keys == keys
    && (set v | v in Ids(b.availableVariants)) == keys
    && |Ids(b.availableVariants)| == |keys|
  }

  /** A table read: the entry for `v`, or `UnknownVariant` when there is none. */
  function Lookup<V>(table: map<VariantId, V>, v: VariantId): (r: Result<V, RegistryError>)
    ensures r.Success? <==> v in table
    ensures r.Success? ==> r.value == table[v]
    ensures r.Failure? ==> r.error == UnknownVariant(v)
  {
    if v in table then Success(table[v]) else Failure(UnknownVariant(v))
  }

  function GetSilhouetteColor(b: Building, v: VariantId): (r: Result<string, RegistryError>)
    ensures r.Success? <==> v in b.silhouetteColors
    ensures r.Success? ==> r.value == b.silhouetteColors[v]
  {
    Lookup(b.silhouetteColors, v)
  }

  function GetDimensions(b: Building, v: VariantId): (r: Result<Vector, RegistryError>)
    ensures r.Success? <==> v in b.dimensions
    ensures r.Success? ==> r.value == b.dimensions[v]
  {
    Lookup(b.dimensions, v)
  }

  function GetIsRemovable(b: Building, v: VariantId): (r: Result<bool, RegistryError>)
    ensures r.Success? <==> v in b.isRemovable
    ensures r.Success? ==> r.value == b.isRemovable[v]
  {
    Lookup(b.isRemovable, v)
  }

  function GetIsRotatable(b: Building, v: VariantId): (r: Result<bool, RegistryError>)
    ensures r.Success? <==> v in b.isRotatable
    ensures r.Success? ==> r.value == b.isRotatable[v]
  {
    Lookup(b.isRotatable, v)
  }

  /** The layer of a variant; the progression state the source passes in is
      never read by these tables. */
  function GetLayer(b: Building, v: VariantId): (r: Result<Layer, RegistryError>)
    ensures r.Success? <==> v in b.layerByVariant
    ensures r.Success? ==> r.value == b.layerByVariant[v]
  {
    Lookup(b.layerByVariant, v)
  }

  function GetShowLayerPreview(b: Building, v: VariantId): (r: Result<LayerPreview, RegistryError>)
    ensures r.Success? <==> v in b.layerPreview
    ensures r.Success? ==> r.value == b.layerPreview[v]
  {
    Lookup(b.layerPreview, v)
  }

  /** `getRenderPins`: answered by the building's own table when it declares
      one, otherwise by the building default. */
  function GetRenderPins(b: Building, v: VariantId): (r: Result<RenderPins, RegistryError>)
    ensures b.renderPins.None? ==> r == Failure(NotOverridden)
    ensures b.renderPins.Some? ==> (r.Success? <==> v in b.renderPins.value)
    ensures b.renderPins.Some? && r.Success? ==> r.value == b.renderPins.value[v]
  {
    match b.renderPins
    case None => Failure(NotOverridden)
    case Some(table) => Lookup(table, v)
  }

  /** `getSpecialOverlayRenderMatrix`: the variant's provider yields either
      no overlay, or the rotation table of a base pattern, which is indexed
      by the rotation. The providers ignore the entity and the rotation
      variant, so neither is a parameter here. */
  function GetSpecialOverlayRenderMatrix(b: Building, rotation: Angle, v: VariantId): (r: Result<Option<Matrix>, RegistryError>)
    ensures r.Success? <==> v in b.overlayMatrices
    ensures r.Success? && b.overlayMatrices[v].None? ==> r.value == None
    ensures r.Success? && b.overlayMatrices[v].Some? ==>
              r.value == Some(RotateBy(b.overlayMatrices[v].value, rotation / 90))
  {
    var provider :- Lookup(b.overlayMatrices, v);
    match provider
    case None => Success(None)
    case Some(base) => Success(Some(RotationTable(base)[rotation]))
  }

  /** The declared variants whose availability holds, in declaration order. */
  function AvailableVariants(decls: seq<(VariantId, Availability)>, unlocked: set<Reward>): (r: seq<VariantId>)
    ensures |r| <= |decls|
    ensures forall v :: v in r <==> exists i | 0 <= i < |decls| :: decls[i].0 == v && IsAvailable(decls[i].1, unlocked)
  {
    if |decls| == 0 then []
    else
      var last := decls[|decls| - 1];
      AvailableVariants(decls[..|decls| - 1], unlocked)
      + (if IsAvailable(last.1, unlocked) then [last.0] else [])
  }

  /** `getAvailableVariants`: walks the availability table in declaration
      order and keeps each variant whose predicate holds. */
  method GetAvailableVariants(b: Building, unlocked: set<Reward>) returns (available: seq<VariantId>)
    ensures available == AvailableVariants(b.availableVariants, unlocked)
    ensures forall v :: v in available <==>
              exists i | 0 <= i < |b.availableVariants| ::
                b.availableVariants[i].0 == v && IsAvailable(b.availableVariants[i].1, unlocked)
  {
    var decls := b.availableVariants;
    available := [];
    var i := 0;
    while i < |decls|
      invariant 0 <= i <= |decls|
      invariant available == AvailableVariants(decls[..i], unlocked)
    {
      assert decls[..i + 1][..i] == decls[..i];
      if IsAvailable(decls[i].1, unlocked) {
        available := available + [decls[i].0];
      }
      i := i + 1;
    }
    assert decls[..i] == decls;
  }

  /** When every variant shares one predicate, the filter returns either all
      declared variants in declaration order or none of them. */
  lemma {:induction false} UniformAvailability(decls: seq<(VariantId, Availability)>, a: Availability, unlocked: set<Reward>)
    requires forall i | 0 <= i < |decls| :: decls[i].1 == a
    ensures AvailableVariants(decls, unlocked) == (if IsAvailable(a, unlocked) then Ids(decls) else [])
  {
    if |decls| > 0 {
      UniformAvailability(decls[..|decls| - 1], a, unlocked);
    }
  }

  /** Every variant the filter advertises has an entry in every table, so no
      getter fails on it. */
  lemma AdvertisedVariantsResolve(b: Building, keys: set<VariantId>, unlocked: set<Reward>, v: VariantId)
    requires TablesKeyedBy(b, keys)
    requires v in AvailableVariants(b.availableVariants, unlocked)
    ensures GetSilhouetteColor(b, v).Success? && GetDimensions(b, v).Success?
    ensures GetIsRemovable(b, v).Success? && GetIsRotatable(b, v).Success?
    ensures GetLayer(b, v).Success? && GetShowLayerPreview(b, v).Success?
    ensures b.renderPins.Some? ==> GetRenderPins(b, v).Success?
    ensures forall a: Angle :: GetSpecialOverlayRenderMatrix(b, a, v).Success?
  {
    var i :| 0 <= i < |b.availableVariants| && b.availableVariants[i].0 == v && IsAvailable(b.availableVariants[i].1, unlocked);
    assert Ids(b.availableVariants)[i] == v;
  }
}

=== FILE: stacker.dfy ===
/** The stacker: a 2x1 processor that takes two shapes from below and puts
    one out on top. It has one variant, unlocked by the stacker reward. */
module Stacker {
  import opened Wrappers
  import opened Geometry
  import opened Components
  import opened Registry

  const Variants: set<VariantId> := {DefaultVariant}

  /** The footprint. */
  const Size: Vector := Vector(2, 1)

  /** The static tables. */
  const Tables: Building := Building(
    silhouetteColors := map[DefaultVariant := "#9fcd7d"],
    dimensions := map[DefaultVariant := Vector(2, 1)],
    isRemovable := map[DefaultVariant := true],
    isRotatable := map[DefaultVariant := true],
    renderPins := Some(map[DefaultVariant := RenderNull]),
    layerPreview := map[DefaultVariant := PreviewNull],
    availableVariants := [(DefaultVariant, WhenUnlocked(RewardStacker))],
    layerByVariant := map[DefaultVariant := Regular],
    overlayMatrices := map[DefaultVariant := None])

  /** `setupEntityComponents`: a stacker processor taking two inputs per
      charge, one output on the top edge and two shape inputs on the bottom
      edge, all inside the footprint. */
  function Setup(e: Entity): (r: Entity)
    ensures r.itemProcessor == Some(ItemProcessorComponent(2, StackerProcessor))
    ensures r.itemEjector.Some? && |r.itemEjector.value.slots| == 1
    ensures r.itemEjector.value.slots[0].direction == Top
    ensures FacesOutward(r.itemEjector.value.slots[0].pos, Top, Size)
    ensures r.itemAcceptor.Some? && |r.itemAcceptor.value.slots| == 2
    ensures forall i | 0 <= i < 2 ::
              && r.itemAcceptor.value.slots[i].directions == [Bottom]
              && r.itemAcceptor.value.slots[i].filter == "shape"
              && FacesOutward(r.itemAcceptor.value.slots[i].pos, Bottom, Size)
    ensures r.itemAcceptor.value.slots[0].pos != r.itemAcceptor.value.slots[1].pos
    ensures r.(itemProcessor := e.itemProcessor, itemEjector := e.itemEjector, itemAcceptor := e.itemAcceptor) == e
  {
    e.(itemProcessor := Some(ItemProcessorComponent(inputsPerCharge := 2, processorType := StackerProcessor)))
     .(itemEjector := Some(ItemEjectorComponent([EjectorSlot(Vector(0, 0), Top)])))
     .(itemAcceptor := Some(ItemAcceptorComponent([
        AcceptorSlot(Vector(0, 0), [Bottom], "shape"),
        AcceptorSlot(Vector(1, 0), [Bottom], "shape")])))
  }

  /** The components the default variation writes. */
  predicate Configurable(e: Entity) {
    e.itemProcessor.Some? && e.itemEjector.Some? && e.itemAcceptor.Some?
  }

  /** `componentVariations[default]`: rewrites the processor settings and
      replaces both slot lists, writing exactly what setup writes to them and
      nothing else. */
  function ApplyDefault(e: Entity): (r: Entity)
    requires Configurable(e)
    ensures Configurable(r)
    ensures r.itemProcessor == Setup(e).itemProcessor
    ensures r.itemEjector == Setup(e).itemEjector
    ensures r.itemAcceptor == Setup(e).itemAcceptor
    ensures r.(itemProcessor := e.itemProcessor, itemEjector := e.itemEjector, itemAcceptor := e.itemAcceptor) == e
  {
    var processor := e.itemProcessor.value.(inputsPerCharge := 2).(processorType := StackerProcessor);
    e.(itemProcessor := Some(processor))
     .(itemEjector := Some(ItemEjectorComponent([EjectorSlot(Vector(0, 0), Top)])))
     .(itemAcceptor := Some(ItemAcceptorComponent([
        AcceptorSlot(Vector(0, 0), [Bottom], "shape"),
        AcceptorSlot(Vector(1, 0), [Bottom], "shape")])))
  }

  /** `updateVariants`: dispatch on the variant table. */
  function UpdateVariants(e: Entity, v: VariantId): (r: Result<Entity, RegistryError>)
    requires v in Variants ==> Configurable(e)
    ensures r.Success? <==> v in Variants
    ensures r.Success? ==> r.value.itemProcessor == Setup(e).itemProcessor
    ensures r.Success? ==> r.value.itemEjector == Setup(e).itemEjector
    ensures r.Success? ==> r.value.itemAcceptor == Setup(e).itemAcceptor
    ensures r.Success? ==>
              r.value.(itemProcessor := e.itemProcessor, itemEjector := e.itemEjector, itemAcceptor := e.itemAcceptor) == e
  {
    if v == DefaultVariant then Success(ApplyDefault(e)) else Failure(UnknownVariant(v))
  }

  /** Every table is keyed by the default variant only. */
  lemma TablesKeyedByDefault()
    ensures TablesKeyedBy(Tables, Variants)
    ensures Tables.renderPins.Some?
  {
    assert Ids(Tables.availableVariants) == [DefaultVariant];
  }

  /** The default descriptor: 2x1, removable, rotatable, on the regular layer,
      with no overlay, no layer preview and `null` for render pins. */
  lemma DefaultDescriptor(rotation: Angle)
    ensures GetDimensions(Tables, DefaultVariant) == Success(Size)
    ensures GetIsRemovable(Tables, DefaultVariant) == Success(true)
    ensures GetIsRotatable(Tables, DefaultVariant) == Success(true)
    ensures GetLayer(Tables, DefaultVariant) == Success(Regular)
    ensures GetShowLayerPreview(Tables, DefaultVariant) == Success(PreviewNull)
    ensures GetRenderPins(Tables, DefaultVariant) == Success(RenderNull)
    ensures GetSpecialOverlayRenderMatrix(Tables, rotation, DefaultVariant) == Success(None)
  {
  }

  /** Offered exactly when the stacker reward is unlocked. */
  lemma AvailableWithStacker(unlocked: set<Reward>)
    ensures AvailableVariants(Tables.availableVariants, unlocked)
         == (if RewardStacker in unlocked then [DefaultVariant] else [])
  {
    UniformAvailability(Tables.availableVariants, WhenUnlocked(RewardStacker), unlocked);
  }

  /** The default variation gives back the state setup produced, and is
      idempotent. */
  lemma DefaultVariationReproducesSetup(e: Entity)
    ensures ApplyDefault(Setup(e)) == Setup(e)
    ensures Configurable(e) ==> ApplyDefault(ApplyDefault(e)) == ApplyDefault(e)
  {
  }
}

=== FILE: transistor.dfy ===
/** The transistor: a 1x1 logic gate on the wires layer with a default and a
    mirrored variant, which differ only in the side its control pin faces. */
module Transistor {
  import opened Wrappers
  import opened Geometry
  import opened Components
  import opened Registry

  const Mirrored: VariantId := Named("mirrored")

  const Variants: set<VariantId> := {DefaultVariant, Mirrored}

  /** The static tables. */
  const Tables: Building := Building(
    silhouetteColors := map[DefaultVariant := "#823cab", Mirrored := "#823cab"],
    dimensions := map[DefaultVariant := Vector(1, 1), Mirrored := Vector(1, 1)],
    isRemovable := map[DefaultVariant := true, Mirrored := true],
    isRotatable := map[DefaultVariant := true, Mirrored := true],
    renderPins := Some(map[DefaultVariant := RenderFalse, Mirrored := RenderFalse]),
    layerPreview := map[DefaultVariant := PreviewLayer(Wires), Mirrored := PreviewLayer(Wires)],
    availableVariants := [(DefaultVariant, WhenUnlocked(RewardLogicGates)), (Mirrored, WhenUnlocked(RewardLogicGates))],
    layerByVariant := map[DefaultVariant := Wires, Mirrored := Wires],
    overlayMatrices := map[
      DefaultVariant := Some(FromBits([0, 1, 0, 1, 1, 0, 0, 1, 0])),
      Mirrored := Some(FromBits([0, 1, 0, 0, 1, 1, 0, 1, 0]))])

  /** `setupEntityComponents`: three pins on the single tile (the output on
      top, the two inputs on the left and at the bottom) and a transistor
      logic gate. */
  function Setup(e: Entity): (r: Entity)
    ensures r.wiredPins.Some? && |r.wiredPins.value.slots| == 3
    ensures forall i | 0 <= i < 3 ::
              FacesOutward(r.wiredPins.value.slots[i].pos, r.wiredPins.value.slots[i].direction, Vector(1, 1))
    ensures r.wiredPins.value.slots[0].pinType == LogicalEjector && r.wiredPins.value.slots[0].direction == Top
    ensures r.wiredPins.value.slots[1].pinType == LogicalAcceptor && r.wiredPins.value.slots[1].direction == Left
    ensures r.wiredPins.value.slots[2].pinType == LogicalAcceptor && r.wiredPins.value.slots[2].direction == Bottom
    ensures r.logicGate == Some(LogicGateComponent(TransistorGate))
    ensures r.(wiredPins := e.wiredPins, logicGate := e.logicGate) == e
  {
    e.(wiredPins := Some(WiredPinsComponent([
        PinSlot(Vector(0, 0), Top, LogicalEjector),
        PinSlot(Vector(0, 0), Left, LogicalAcceptor),
        PinSlot(Vector(0, 0), Bottom, LogicalAcceptor)])))
     .(logicGate := Some(LogicGateComponent(TransistorGate)))
  }

  /** An entity a variation can be applied to: it has pins, and at least two. */
  predicate HasControlPin(e: Entity) {
    e.wiredPins.Some? && |e.wiredPins.value.slots| >= 2
  }

  /** `after` is `before` with only pin 1's direction changed, to `d`. */
  predicate OnlyControlPinTurned(before: Entity, after: Entity, d: Direction)
    requires HasControlPin(before)
  {
    && after.wiredPins.Some?
    && var b := before.wiredPins.value.slots;
    && var a := after.wiredPins.value.slots;
    && |a| == |b|
    && (forall i | 0 <= i < |b| && i != 1 :: a[i] == b[i])
    && a[1].pos == b[1].pos && a[1].pinType == b[1].pinType && a[1].direction == d
    && after.(wiredPins := before.wiredPins) == before
  }

  /** `componentVariations[default]`: pin 1 faces left. */
  function ApplyDefault(e: Entity): (r: Entity)
    requires HasControlPin(e)
    ensures HasControlPin(r)
    ensures OnlyControlPinTurned(e, r, Left)
  {
    var slots := e.wiredPins.value.slots;
    e.(wiredPins := Some(WiredPinsComponent(slots[1 := slots[1].(direction := Left)])))
  }

  /** `componentVariations[mirrored]`: pin 1 faces right. */
  function ApplyMirrored(e: Entity): (r: Entity)
    requires HasControlPin(e)
    ensures HasControlPin(r)
    ensures OnlyControlPinTurned(e, r, Right)
  {
    var slots := e.wiredPins.value.slots;
    e.(wiredPins := Some(WiredPinsComponent(slots[1 := slots[1].(direction := Right)])))
  }

  /** `updateVariants`: dispatch on the variant table. */
  function UpdateVariants(e: Entity, v: VariantId): (r: Result<Entity, RegistryError>)
    requires v in Variants ==> HasControlPin(e)
    ensures r.Success? <==> v in Variants
    ensures r.Success? ==> OnlyControlPinTurned(e, r.value, if v == Mirrored then Right else Left)
  {
    if v == DefaultVariant then Success(ApplyDefault(e))
    else if v == Mirrored then Success(ApplyMirrored(e))
    else Failure(UnknownVariant(v))
  }

  /** Every table is keyed by exactly the two variants, so every getter is
      defined for both. */
  lemma TablesCoverBothVariants()
    ensures TablesKeyedBy(Tables, Variants)
    ensures Tables.renderPins.Some?
  {
    MapsKeyedByVariants();
    DeclaredOnceEach();
  }

  /** Every table map has exactly the two variants as keys. */
  lemma MapsKeyedByVariants()
    ensures Tables.silhouetteColors.Keys == Variants
    ensures Tables.dimensions.Keys == Variants
    ensures Tables.isRemovable.Keys == Variants
    ensures Tables.isRotatable.Keys == Variants
    ensures Tables.renderPins.Some? && Tables.renderPins.value.Keys == Variants
    ensures Tables.layerPreview.Keys == Variants
    ensures Tables.layerByVariant.Keys == Variants
    ensures Tables.overlayMatrices.Keys == Variants
  {
  }

  /** Each variant's availability is declared once. */
  lemma DeclaredOnceEach()
    ensures (set v | v in Ids(Tables.availableVariants)) == Variants
    ensures |Ids(Tables.availableVariants)| == |Variants|
  {
    var ids := Ids(Tables.availableVariants);
    assert ids == [DefaultVariant, Mirrored];
    assert DefaultVariant !in {Mirrored};
    assert |Variants| == |{Mirrored}| + 1 == 2;
  }

  /** Both variants share one descriptor: 1x1, removable, rotatable, on the
      wires layer, previewing the wires layer, pins not drawn. */
  lemma SharedDescriptor(v: VariantId)
    requires v in Variants
    ensures GetDimensions(Tables, v) == Success(Vector(1, 1))
    ensures GetSilhouetteColor(Tables, v) == GetSilhouetteColor(Tables, DefaultVariant)
    ensures GetIsRemovable(Tables, v) == Success(true)
    ensures GetIsRotatable(Tables, v) == Success(true)
    ensures GetLayer(Tables, v) == Success(Wires)
    ensures GetShowLayerPreview(Tables, v) == Success(PreviewLayer(Wires))
    ensures GetRenderPins(Tables, v) == Success(RenderFalse)
  {
  }

  /** Both variants once logic gates are unlocked, in declaration order;
      none before. */
  lemma AvailableWithLogicGates(unlocked: set<Reward>)
    ensures AvailableVariants(Tables.availableVariants, unlocked)
         == (if RewardLogicGates in unlocked then [DefaultVariant, Mirrored] else [])
  {
    UniformAvailability(Tables.availableVariants, WhenUnlocked(RewardLogicGates), unlocked);
    assert Ids(Tables.availableVariants) == [DefaultVariant, Mirrored];
  }

  /** The default variation leaves a freshly set-up transistor as it is:
      its control pin already faces left. */
  lemma DefaultVariationKeepsSetup(e: Entity)
    ensures ApplyDefault(Setup(e)) == Setup(e)
  {
    var s := Setup(e).wiredPins.value.slots;
    assert s[1 := s[1].(direction := Left)] == s;
  }

  /** Each variation is idempotent. */
  lemma VariationsIdempotent(e: Entity)
    requires HasControlPin(e)
    ensures ApplyDefault(ApplyDefault(e)) == ApplyDefault(e)
    ensures ApplyMirrored(ApplyMirrored(e)) == ApplyMirrored(e)
  {
    var d := ApplyDefault(e).wiredPins.value.slots;
    assert d[1 := d[1].(direction := Left)] == d;
    var m := ApplyMirrored(e).wiredPins.value.slots;
    assert m[1 := m[1].(direction := Right)] == m;
  }

  /** Mirroring and switching back restores the default configuration. */
  lemma MirrorThenDefaultRestores(e: Entity)
    requires HasControlPin(e)
    ensures ApplyDefault(ApplyMirrored(e)) == ApplyDefault(e)
    ensures ApplyDefault(ApplyMirrored(Setup(e))) == Setup(e)
  {
    var s := e.wiredPins.value.slots;
    var m := ApplyMirrored(e).wiredPins.value.slots;
    assert m[1 := m[1].(direction := Left)] == s[1 := s[1].(direction := Left)];
    DefaultVariationKeepsSetup(e);
    var s' := Setup(e).wiredPins.value.slots;
    var m' := ApplyMirrored(Setup(e)).wiredPins.value.slots;
    assert m'[1 := m'[1].(direction := Left)] == s'[1 := s'[1].(direction := Left)];
  }

  /** The pin directions of an entity's pins, as an edge set. */
  function PinEdges(e: Entity): Edges
    requires e.wiredPins.Some?
  {
    var slots := e.wiredPins.value.slots;
    EdgesOf(seq(|slots|, i requires 0 <= i < |slots| => slots[i].direction))
  }

  /** The arms of each variant's overlay pattern are exactly the edges its
      pins face after the variation: the default pattern's side arm is on
      the left, the mirrored one's on the right. */
  lemma OverlayArmsMatchPins(e: Entity, v: VariantId)
    requires v in Variants
    ensures var after := UpdateVariants(Setup(e), v).value;
            Tables.overlayMatrices[v].Some? && ArmsOf(Tables.overlayMatrices[v].value) == PinEdges(after)
  {
    var after := UpdateVariants(Setup(e), v).value;
    var dirs := seq(3, i requires 0 <= i < 3 => after.wiredPins.value.slots[i].direction);
    if v == DefaultVariant {
      assert dirs == [Top, Left, Bottom];
    } else {
      assert dirs == [Top, Right, Bottom];
    }
  }
}

=== FILE: wire.dfy ===
/** The wire autotiler: from the four neighbour connections of a tile it picks
    one of four wire shapes and a rotation, so that adjacent wire tiles join up. */
module Wire {
  import opened Wrappers
  import opened Geometry
  import opened Components

  datatype WireType = Forward | Turn | Split | Cross

  /** The shape order whose positions are the rotation variants. */
  const RotationVariantToType: seq<WireType> := [Forward, Turn, Split, Cross]

  /** What the placement layer receives for a wire tile. */
  datatype Placement = Placement(rotation: int, rotationVariant: int)

  /** Position of `x` in `s`, or -1 when `x` does not occur (`Array.indexOf`). */
  function IndexOf<T(==)>(s: seq<T>, x: T): (i: int)
    ensures -1 <= i < |s|
    ensures i == -1 <==> x !in s
    ensures 0 <= i ==> s[i] == x && forall j | 0 <= j < i :: s[j] != x
  {
    if |s| == 0 then -1
    else if s[0] == x then 0
    else
      var k := IndexOf(s[1..], x);
      if k == -1 then -1 else k + 1
  }

  /** The connection flag: one hexadecimal digit per edge, top = 0x1000,
      right = 0x100, bottom = 0x10, left = 0x1. The four weights occupy
      disjoint bits, so OR-ing them in is the same as adding them. */
  function Flag(c: Edges): (f: int)
    ensures 0 <= f <= 0x1111
    ensures forall k | 0 <= k < 4 :: HexDigit(f, k) <= 1
    ensures DecodeFlag(f) == c
  {
    FlagDigits(c);
    (if c.top then 0x1000 else 0)
    + (if c.right then 0x100 else 0)
    + (if c.bottom then 0x10 else 0)
    + (if c.left then 0x1 else 0)
  }

  /** The digits of the flag, one connection pattern at a time. */
  lemma {:induction false} FlagDigits(c: Edges)
    ensures var f := (if c.top then 0x1000 else 0) + (if c.right then 0x100 else 0)
                     + (if c.bottom then 0x10 else 0) + (if c.left then 0x1 else 0);
      && HexDigit(f, 3) == (if c.top then 1 else 0)
      && HexDigit(f, 2) == (if c.right then 1 else 0)
      && HexDigit(f, 1) == (if c.bottom then 1 else 0)
      && HexDigit(f, 0) == (if c.left then 1 else 0)
  {
    if c.top {
      if c.right {
        if c.bottom { if c.left { } else { } } else { if c.left { } else { } }
      } else {
        if c.bottom { if c.left { } else { } } else { if c.left { } else { } }
      }
    } else {
      if c.right {
        if c.bottom { if c.left { } else { } } else { if c.left { } else { } }
      } else {
        if c.bottom { if c.left { } else { } } else { if c.left { } else { } }
      }
    }
  }

  /** The weight of the `k`-th hexadecimal digit, counting from the least significant. */
  function DigitWeight(k: nat): (w: nat)
    requires k < 4
    ensures w > 0
  {
    if k == 0 then 0x1 else if k == 1 then 0x10 else if k == 2 then 0x100 else 0x1000
  }

  function HexDigit(f: nat, k: nat): nat
    requires k < 4
  {
    (f / DigitWeight(k)) % 16
  }

  /** Reads the four edge flags back out of a flag value. */
  function DecodeFlag(f: nat): Edges {
    Edges(HexDigit(f, 3) == 1, HexDigit(f, 2) == 1, HexDigit(f, 1) == 1, HexDigit(f, 0) == 1)
  }

  /** The flag values the switch has a case for. */
  const CaseCodes: set<int> := {
    0x0000, 0x0001, 0x0010, 0x0011, 0x0100, 0x0101, 0x0110, 0x0111,
    0x1000, 0x1001, 0x1010, 0x1011, 0x1100, 0x1101, 0x1110, 0x1111 }

  /** What the switch leaves behind: a target shape and a rotation offset from
      the reset rotation 0. */
  datatype SwitchOutcome = SwitchOutcome(targetType: WireType, rotation: int)

  /** The switch over the flag. A value without a case keeps the initial
      values, forward and 0, as the switch has no default branch. */
  function Switch(flag: int): SwitchOutcome {
    match flag
    case 0x0000 => SwitchOutcome(Forward, 0)
    case 0x0001 => SwitchOutcome(Forward, 0 + 90)
    case 0x0010 => SwitchOutcome(Forward, 0)
    case 0x0011 => SwitchOutcome(Turn, 0 + 90)
    case 0x0100 => SwitchOutcome(Forward, 0 + 90)
    case 0x0101 => SwitchOutcome(Forward, 0 + 90)
    case 0x0110 => SwitchOutcome(Turn, 0)
    case 0x0111 => SwitchOutcome(Split, 0)
    case 0x1000 => SwitchOutcome(Forward, 0)
    case 0x1001 => SwitchOutcome(Turn, 0 + 180)
    case 0x1010 => SwitchOutcome(Forward, 0)
    case 0x1011 => SwitchOutcome(Split, 0 + 90)
    case 0x1100 => SwitchOutcome(Turn, 0 - 90)
    case 0x1101 => SwitchOutcome(Split, 0 + 180)
    case 0x1110 => SwitchOutcome(Split, 0 - 90)
    case 0x1111 => SwitchOutcome(Cross, 0)
    case _ => SwitchOutcome(Forward, 0)
  }

  /** JavaScript's `%`: the remainder takes the sign of the dividend. */
  function JsRemainder(a: int, b: int): (r: int)
    requires b > 0
    ensures a >= 0 ==> r == a % b
    ensures a < 0 ==> -b < r <= 0
    ensures (a - r) % b == 0
  {
    if a >= 0 then
      RemainderUnique(a - a % b, b, a / b, 0);
      a % b
    else
      NegatedRemainderCongruent(-a, b);
      -((-a) % b)
  }

  /** Negating a Euclidean remainder stays in the residue class of the negated dividend. */
  lemma NegatedRemainderCongruent(n: int, b: int)
    requires b > 0
    ensures (-n + n % b) % b == 0
  {
    var q := n / b;
    assert n == b * q + n % b;
    NegateProduct(b, q);
    RemainderUnique(-n + n % b, b, -q, 0);
  }

  /** Multiplication commutes with negation of the second factor. */
  lemma NegateProduct(b: int, q: int)
    ensures b * (-q) == -(b * q)
  {
  }

  /** Euclidean division has exactly one remainder in [0, b). */
  lemma RemainderUnique(x: int, b: int, q: int, r: int)
    requires b > 0 && 0 <= r < b
    requires x == b * q + r
    ensures x % b == r
  {
    var q' := x / b;
    assert x == b * q' + x % b;
    var k := q - q';
    assert b * q - b * q' == b * k by { DistributeDifference(b, q, q'); }
    assert b * k == x % b - r;
    ScaledAtLeastDivisor(b, k);
  }

  /** Multiplication distributes over a difference. */
  lemma DistributeDifference(b: int, q: int, q': int)
    ensures b * q - b * q' == b * (q - q')
  {
  }

  /** A non-zero multiple of `b` is at least `b` away from zero. */
  lemma {:induction false} ScaledAtLeastDivisor(b: int, k: int)
    requires b > 0
    ensures k >= 1 ==> b * k >= b
    ensures k <= -1 ==> b * k <= -b
    ensures k == 0 ==> b * k == 0
    decreases if k < 0 then -k else k
  {
    if k > 1 {
      ScaledAtLeastDivisor(b, k - 1);
      assert b * k == b * (k - 1) + b;
    } else if k < -1 {
      ScaledAtLeastDivisor(b, k + 1);
      assert b * k == b * (k + 1) - b;
    }
  }

  /** The clamp applied to the rotation before it is returned. */
  function ClampRotation(rotation: int): (r: int)
    ensures rotation >= -3600 ==> 0 <= r < 360 && (rotation - r) % 360 == 0
  {
    JsRemainder(rotation + 360 * 10, 360)
  }

  /** The shape the connected edges call for, counted independently of the
      switch: no edge, one edge, or two opposite edges give a straight piece,
      two adjacent edges a corner, three a split and four a cross. */
  function ExpectedShape(c: Edges): WireType {
    var n := Count(c);
    if n <= 1 then Forward
    else if n == 2 then
      (if (c.top && c.bottom) || (c.left && c.right) then Forward else Turn)
    else if n == 3 then Split
    else Cross
  }

  /** Case by case, the switch picks the shape the connections call for, a
      raw offset the clamp turns into a multiple of 90, and for a straight
      piece a horizontal run exactly when left or right is connected. */
  lemma {:induction false} SwitchMatchesShape(c: Edges)
    ensures Switch(Flag(c)).targetType == ExpectedShape(c)
    ensures -90 <= Switch(Flag(c)).rotation <= 180
    ensures ClampRotation(Switch(Flag(c)).rotation) % 90 == 0
    ensures ExpectedShape(c) == Forward ==> (Switch(Flag(c)).rotation == 90 <==> c.left || c.right)
    ensures ExpectedShape(c) == Forward ==> Switch(Flag(c)).rotation == 0 || Switch(Flag(c)).rotation == 90
    ensures ExpectedShape(c) == Cross ==> Switch(Flag(c)).rotation == 0
  {
    if c.top {
      if c.right {
        if c.bottom {
          if c.left { } else { }
        } else {
          if c.left { } else { }
        }
      } else {
        if c.bottom {
          if c.left { } else { }
        } else {
          if c.left { } else { }
        }
      }
    } else {
      if c.right {
        if c.bottom {
          if c.left { } else { }
        } else {
          if c.left { } else { }
        }
      } else {
        if c.bottom {
          if c.left { } else { }
        } else {
          if c.left { } else { }
        }
      }
    }
  }

  /** The autotiler. The incoming `rotation` is ignored: the source resets it
      to 0 before the switch. */
  function ComputeOptimalDirectionAndRotationVariant(c: Edges, rotation: int): (r: Placement)
    ensures 0 <= r.rotation < 360 && r.rotation % 90 == 0
    ensures 0 <= r.rotationVariant < |RotationVariantToType|
    ensures RotationVariantToType[r.rotationVariant] == ExpectedShape(c)
    ensures ExpectedShape(c) == Forward ==> (r.rotation == 90 <==> c.left || c.right)
    ensures ExpectedShape(c) == Forward ==> r.rotation == 0 || r.rotation == 90
    ensures ExpectedShape(c) == Cross ==> r.rotation == 0
  {
    var flag := Flag(c);
    var outcome := Switch(flag);
    SwitchMatchesShape(c);
    Placement(ClampRotation(outcome.rotation), IndexOf(RotationVariantToType, outcome.targetType))
  }

  /** Every connection pattern has a case in the switch: the flag is one of the
      sixteen listed values. */
  lemma FlagHasCase(c: Edges)
    ensures Flag(c) in CaseCodes
  {
  }

  /** No two connection patterns share a flag value, so each case belongs to
      exactly one pattern. */
  lemma FlagInjective(c: Edges, d: Edges)
    requires Flag(c) == Flag(d)
    ensures c == d
  {
    assert DecodeFlag(Flag(c)) == c;
  }

  /** The result does not depend on the incoming rotation. */
  lemma IgnoresIncomingRotation(c: Edges, rotation1: int, rotation2: int)
    ensures ComputeOptimalDirectionAndRotationVariant(c, rotation1)
         == ComputeOptimalDirectionAndRotationVariant(c, rotation2)
  {
  }

  /** Concrete cases, among them the corner whose raw offset is -90. */
  lemma TopRightIsTurn270()
    ensures ComputeOptimalDirectionAndRotationVariant(Edges(true, true, false, false), 0) == Placement(270, 1)
  {
  }

  lemma TopLeftIsTurn180()
    ensures ComputeOptimalDirectionAndRotationVariant(Edges(true, false, false, true), 0) == Placement(180, 1)
  {
  }

  lemma TopBottomLeftIsSplit90()
    ensures ComputeOptimalDirectionAndRotationVariant(Edges(true, false, true, true), 0) == Placement(90, 2)
  {
  }

  lemma RightBottomLeftIsSplit0()
    ensures ComputeOptimalDirectionAndRotationVariant(Edges(false, true, true, true), 0) == Placement(0, 2)
  {
  }

  lemma TopRightBottomIsSplit270()
    ensures ComputeOptimalDirectionAndRotationVariant(Edges(true, true, true, false), 0) == Placement(270, 2)
  {
  }

  /** The rotation-0 overlay pattern of each wire shape. */
  function BasePattern(t: WireType): Matrix {
    match t
    case Forward => FromBits([0, 1, 0, 0, 1, 0, 0, 1, 0])
    case Split => FromBits([0, 0, 0, 1, 1, 1, 0, 1, 0])
    case Turn => FromBits([0, 0, 0, 0, 1, 1, 0, 1, 0])
    case Cross => FromBits([0, 1, 0, 1, 1, 1, 0, 1, 0])
  }

  /** The arms of each base pattern. */
  function BaseArms(t: WireType): (e: Edges)
    ensures e == ArmsOf(BasePattern(t))
  {
    match t
    case Forward => Edges(true, false, true, false)
    case Split => Edges(false, true, true, true)
    case Turn => Edges(false, true, true, false)
    case Cross => Edges(true, true, true, true)
  }

  /** The overlay drawn for the resolved tile: the base pattern of the shape
      at the chosen rotation variant, taken from its rotation table at the
      chosen rotation. */
  function ResolvedOverlay(c: Edges): Matrix {
    var p := ComputeOptimalDirectionAndRotationVariant(c, 0);
    RotationTable(BasePattern(RotationVariantToType[p.rotationVariant]))[p.rotation]
  }

  /** The arms of the resolved overlay are the base arms of the resolved
      shape turned by the resolved rotation. */
  lemma ResolvedOverlayArms(c: Edges)
    ensures ArmsOf(ResolvedOverlay(c))
         == TurnEdgesBy(BaseArms(ExpectedShape(c)), ComputeOptimalDirectionAndRotationVariant(c, 0).rotation)
  {
    var p := ComputeOptimalDirectionAndRotationVariant(c, 0);
    ArmsOfRotationTable(BasePattern(RotationVariantToType[p.rotationVariant]), p.rotation);
  }

  /** The overlay reaches every connected edge, and draws no other arm once
      two or more edges are connected. */
  lemma {:induction false} OverlayMatchesConnections(c: Edges)
    ensures Covers(ArmsOf(ResolvedOverlay(c)), c)
    ensures Count(c) >= 2 ==> ArmsOf(ResolvedOverlay(c)) == c
  {
    ResolvedOverlayArms(c);
    var p := ComputeOptimalDirectionAndRotationVariant(c, 0);
    if c.top {
      if c.right {
        if c.bottom {
          if c.left {
            assert c == Edges(true, true, true, true);
            assert p.rotation == 0;
          } else {
            assert c == Edges(true, true, true, false);
            assert p.rotation == 270;
          }
        } else {
          if c.left {
            assert c == Edges(true, true, false, true);
            assert p.rotation == 180;
          } else {
            assert c == Edges(true, true, false, false);
            assert p.rotation == 270;
          }
        }
      } else {
        if c.bottom {
          if c.left {
            assert c == Edges(true, false, true, true);
            assert p.rotation == 90;
          } else {
            assert c == Edges(true, false, true, false);
            assert p.rotation == 0;
          }
        } else {
          if c.left {
            assert c == Edges(true, false, false, true);
            assert p.rotation == 180;
          } else {
            assert c == Edges(true, false, false, false);
            assert p.rotation == 0;
          }
        }
      }
    } else {
      if c.right {
        if c.bottom {
          if c.left {
            assert c == Edges(false, true, true, true);
            assert p.rotation == 0;
          } else {
            assert c == Edges(false, true, true, false);
            assert p.rotation == 0;
          }
        } else {
          if c.left {
            assert c == Edges(false, true, false, true);
            assert p.rotation == 90;
          } else {
            assert c == Edges(false, true, false, false);
            assert p.rotation == 90;
          }
        }
      } else {
        if c.bottom {
          if c.left {
            assert c == Edges(false, false, true, true);
            assert p.rotation == 90;
          } else {
            assert c == Edges(false, false, true, false);
            assert p.rotation == 0;
          }
        } else {
          if c.left {
            assert c == Edges(false, false, false, true);
            assert p.rotation == 90;
          } else {
            assert c == Edges(false, false, false, false);
            assert p.rotation == 0;
          }
        }
      }
    }
  }

  /** Creating a wire attaches a wire component and nothing else. */
  function Setup(e: Entity): (r: Entity)
    ensures r.wire.Some?
    ensures r.(wire := e.wire) == e
  {
    e.(wire := Some(WireComponent))
  }
}

=== FILE: wrappers.dfy ===
/** Failure-compatible wrappers shared by the registry and the building modules. */
module Wrappers {

  /** A value that may be absent; `None` stands for the `null` the tables return. */
  datatype Option<+T> = None | Some(value: T)

  /** The outcome of a lookup that can fail. */
  datatype Result<+R, +E> = Success(value: R) | Failure(error: E) {
    predicate IsFailure() {
      Failure?
    }

    function PropagateFailure<U>(): Result<U, E>
      requires Failure?
    {
      Failure(error)
    }

    function Extract(): R
      requires Success?
    {
      value
    }
  }
}
